=== FILE: README.md ===
# Filtering log observer (Twisted `twisted.python.logger._filter`)

A Dafny model of the filtering layer of Twisted's structured logger. It decides,
event by event, whether a log event is forwarded to the next observer:

- `shouldLogEvent` asks an ordered list of predicates for a verdict (`yes`,
  `no`, `maybe`). The first `yes` or `no` decides. `maybe` passes on to the next
  predicate. Running out of predicates means "log it". Any other answer raises
  `TypeError`.
- `LogLevelFilterPredicate` keeps a dictionary from namespace to log level. The
  key `None` holds the default level. It resolves the level of a dotted
  namespace by exact key, then by its longest configured dotted ancestor, then
  by the default. As a predicate it only vetoes (`no`) or abstains (`maybe`).
- `FilteringLogObserver` freezes a predicate list at construction. It is meant
  to forward exactly the events the list accepts, appending a trace entry to an
  event's `log_trace` list only when that key is already present. As written,
  an accepted event that carries `log_trace` raises `AttributeError` instead
  (see "## Findings"); the model proves the intended behaviour and exhibits the
  written one.

Files:

- `wrappers.dfy`: module `Wrappers` (the `Option` type, standing for Python's `None`).
- `levels.dfy`: module `Levels`, the level constants `debug < info < warn < error < critical`,
  their priority, and the membership test used when a level is configured.
- `namespaces.dfy`: module `Namespaces`, Python's `str.split(".")` and `".".join`
  on namespaces, with their round trips and the link between segment prefixes
  and dotted ancestors.
- `filter.dfy`: module `Filter`, the behaviour of `_filter.py`, and a client
  module `FilterClient` that checks, by verification, the configuration and
  forwarding scenarios against the contracts.

An invalid predicate result raises `TypeError` (twisted/python/logger/_filter.py:72),
and so does the model. `clearLogLevels` resets the root entry to the
`defaultLogLevel` attribute as it is when called (twisted/python/logger/_filter.py:182).
That attribute is public and callers may reassign it, so the model keeps it as a
mutable field.

## Model

| member | source | states |
|---|---|---|
| `Filter.ShouldLogEvent` | twisted/python/logger/_filter.py:43-73 | the result is `True` when every predicate abstains (empty list included); otherwise the first non-`maybe` answer decides: `yes` gives `True`, `no` gives `False`, any other value raises `TypeError` naming it |
| `Filter.ShortCircuit` | twisted/python/logger/_filter.py:64-69 | once a `yes` or `no` has been given, predicates placed after it (even ones that would raise) cannot change the outcome: they are never consulted |
| `Filter.AbstainingPrefix` | twisted/python/logger/_filter.py:70-73 | a run of `maybe` answers is transparent: the decision is that of the predicates after it |
| `Filter.InvalidResultRaises` | twisted/python/logger/_filter.py:70-72 | evaluation fails exactly when the first non-`maybe` answer is not `yes` or `no`; such a value is never treated as an abstention |
| `Namespaces.Split` | twisted/python/logger/_filter.py:146 | `str.split(".")` yields at least one segment and no segment contains a dot |
| `Namespaces.JoinSplit` | twisted/python/logger/_filter.py:146-150 | joining the split segments with dots gives back the namespace |
| `Namespaces.SplitWithoutDot` | twisted/python/logger/_filter.py:146 | a namespace without dots is a single segment |
| `Namespaces.SplitAtDot` | twisted/python/logger/_filter.py:146 | the segments of `a + "." + b` are those of `a` followed by those of `b` (empty segments kept) |
| `Namespaces.Join` | twisted/python/logger/_filter.py:150 | `".".join(segments)`: the result starts with the first segment, followed by a dot when there are more; its full meaning is fixed by `JoinSplit`, `SplitJoin` and `JoinAppend` |
| `Namespaces.JoinAppend` | twisted/python/logger/_filter.py:150 | joining two non-empty runs of segments puts exactly one dot between their joins |
| `Namespaces.SplitJoin` | twisted/python/logger/_filter.py:146-150 | splitting the join of dot-free segments gives the segments back |
| `Namespaces.SegmentPrefixIsAncestor` | twisted/python/logger/_filter.py:146-152 | every candidate the lookup loop tries (first k segments, 1 <= k < count) is a dotted ancestor of the namespace: the namespace is that candidate, a dot, and more |
| `Namespaces.AncestorIsSegmentPrefix` | twisted/python/logger/_filter.py:146-152 | every dotted ancestor of the namespace is one of the candidates the loop tries |
| `Namespaces.LongerPrefixJoinsLonger` | twisted/python/logger/_filter.py:147-153 | the loop tries candidates from the longest down: more segments join to a strictly longer string |
| `Levels.IsLogLevel` | twisted/python/logger/_filter.py:168 | `level in LogLevel.iterconstants()` holds exactly for the five level constants |
| `Filter.KeyFor` | twisted/python/logger/_filter.py:171-174 | the key written is the namespace when it is truthy and the root key `None` otherwise; the empty string is never a key |
| `Filter.SearchPrefixes` | twisted/python/logger/_filter.py:146-155 | the prefix search always returns a configured level (a value of the map) |
| `Filter.SearchFindsLongestPrefix` | twisted/python/logger/_filter.py:146-155 | the prefix search returns the level of the largest k in [1, index] whose k-segment prefix is a key, and the root level when there is none |
| `Filter.Resolve` | twisted/python/logger/_filter.py:124-155 | the resolved level is always a configured level; a missing or empty namespace gets the root level; a namespace that is a key gets its own level |
| `Filter.ResolveNearestAncestor` | twisted/python/logger/_filter.py:143-153 | a namespace without its own entry resolves to the level of its nearest configured dotted ancestor |
| `Filter.ResolveWithoutAncestor` | twisted/python/logger/_filter.py:143-155 | a namespace with no own entry and no configured dotted ancestor resolves to the root level |
| `Filter.ResolveAfterReset` | twisted/python/logger/_filter.py:177-182 | with only the default configured (after construction or clearing), every namespace resolves to the default |
| `Filter.PackageLevelCoversSubpackage` | twisted/python/logger/_filter.py:128-131 | with the root at `info` and "app" at `debug`, "app.db" resolves to `debug` and "other" to `info` |
| `Filter.Classify` | twisted/python/logger/_filter.py:185-198 | the level predicate only ever answers `no` or `maybe`, never `yes` |
| `Filter.MissingFieldsDenied` | twisted/python/logger/_filter.py:186-196 | an event with no `log_level` or no `log_namespace` is vetoed |
| `Filter.EmptyNamespaceUsesRoot` | twisted/python/logger/_filter.py:140-141 | an empty-string namespace is not vetoed as such; it passes exactly when its level is at least the root level |
| `Filter.ClassifyMonotoneInLevel` | twisted/python/logger/_filter.py:190-198 | raising an event's level never turns a pass into a veto |
| `Filter.ClassifyAgainstAncestor` | twisted/python/logger/_filter.py:185-198 | an event in an unconfigured namespace is vetoed exactly when its priority is below that of the nearest configured ancestor |
| `Filter.ClassifyAfterReset` | twisted/python/logger/_filter.py:185-198 | with only the default configured, an event passes exactly when it has a level and a namespace and its level is at least the default |
| `Filter.LevelFilterHeadsChain` | twisted/python/logger/_filter.py:64-71 | a level filter at the head of a chain vetoes what it denies and otherwise leaves the decision to the rest of the chain |
| `Filter.LogLevelFilterPredicate.constructor` | twisted/python/logger/_filter.py:118-121 | a new filter holds exactly `{None: defaultLogLevel}`, with `info` as the default default |
| `Filter.LogLevelFilterPredicate.LogLevelForNamespace` | twisted/python/logger/_filter.py:124-155 | the lookup loop (exact key, then candidates from longest to shortest, then root) returns the resolved level |
| `Filter.LogLevelFilterPredicate.SetLogLevelForNamespace` | twisted/python/logger/_filter.py:158-174 | a value that is not a level constant raises `InvalidLogLevelError` and leaves the map unchanged; otherwise exactly one key is written (the namespace if truthy, else the root) and the root key stays present |
| `Filter.LogLevelFilterPredicate.ClearLogLevels` | twisted/python/logger/_filter.py:177-182 | the map becomes exactly `{None: defaultLogLevel}` |
| `Filter.LogLevelFilterPredicate.Call` | twisted/python/logger/_filter.py:185-198 | the answer is the level predicate's verdict on the current map |
| `Filter.FilteringLogObserver.constructor` | twisted/python/logger/_filter.py:84-95 | the wrapped observer and the predicate list are fixed (constant fields) from construction on |
| `Filter.FilteringLogObserver.Call` | twisted/python/logger/_filter.py:98-105 | an accepted event is forwarded exactly once and gets one trace entry when it already has a trace list; a rejected event is neither forwarded nor traced; an invalid predicate answer raises; no trace list is ever created |
| `Filter.CallAsWritten` | twisted/python/logger/_filter.py:102-105 | as written, an event reaches the wrapped observer only if it is accepted and carries no trace list |
| `Filter.AsWrittenLosesTracedEvents` | twisted/python/logger/_filter.py:104 | as written, an accepted event that carries a trace list raises `AttributeError` instead of being forwarded |
| `Filter.AsWrittenCounterexample` | twisted/python/logger/_filter.py:104 | with no predicates, an event carrying a trace list already fails as written |

## Findings

| source | as written | input that shows it | evidently intended | confidence | as-written member | corrected member |
|---|---|---|---|---|---|---|
| twisted/python/logger/_filter.py:104 | the trace entry reads `self.observer`, but the constructor only sets `self._observer` (line 94), so an accepted event with a `log_trace` key raises `AttributeError` before the append and is never forwarded | no predicates, event `{"log_level": info, "log_namespace": "app", "log_trace": []}` | append `(self, self._observer)` and forward the event | high, not executed | `Filter.CallAsWritten` | `Filter.FilteringLogObserver.Call` |

## Left out

- Interface declarations (`ILogFilterPredicate`, `ILogObserver`, `implementer`) are typing only. The `functools.partial` is modelled as the stored predicate list.
- twisted/python/logger/_levels.py is not part of this model. Its levels are taken as the five constants in declaration order. `_priorityForLevel` is taken as the position in that order. `InvalidLogLevelError` is one case of the error type.
- An event's `log_level` that is not a level constant is not modelled: the event type only admits level constants. When the event's namespace is missing or `None`, the source vetoes it (twisted/python/logger/_filter.py:191, 195). Otherwise it passes the value to `LogLevel._priorityForLevel` in `_levels.py`, which is outside this model.
- `Filter.LogLevelFilterPredicate.constructor`: the source does not check `defaultLogLevel`; the model types it as a level constant.
- Predicates are pure functions of the event. Their side effects, an exception a predicate raises itself, and how many times they are called are not modelled. "Never invoked after the first decision" is stated as: nothing after it can change the outcome, not even a predicate that would answer invalidly.
- A `LogLevelFilterPredicate` inside a chain is represented by `LevelPredicate` over a snapshot of its level map. A `FilteringLogObserver` stores that snapshot when it is built, whereas the source copies only the list and keeps the live filter object (lines 95, 102, 188). So a `setLogLevelForNamespace` or `clearLogLevels` on a filter that is already wired into a forwarder, which changes what that forwarder drops in the source, is not modelled.
- The wrapped observer's own effects are not modelled. Handing an event to it is recorded in the ghost log `forwarded`. The order "trace first, then forward" is not observable in the model.
- Trace entries hold observer identities (`ObserverId`) rather than the objects themselves.
- Event fields other than `log_level`, `log_namespace` and `log_trace`, and namespaces that are not strings, are not modelled.
- Concurrency and locking: the source does none.

=== FILE: filter.dfy ===
/**
 * The filtering layer of the logging pipeline (twisted/python/logger/_filter.py):
 * predicate results and the short-circuiting chain evaluator `shouldLogEvent`,
 * the per-namespace level filter `LogLevelFilterPredicate`, and the forwarding
 * observer `FilteringLogObserver`.
 */
module Filter {
  import opened Wrappers
  import opened Levels
  import opened Namespaces

  // ---------------------------------------------------------------------------
  // Events
  // ---------------------------------------------------------------------------

  /** Identity of an observer object (the filter itself or the one it wraps). */
  type ObserverId = nat

  /** One `log_trace` entry: the filter stage and the observer it forwarded to. */
  datatype TraceEntry = TraceEntry(stage: ObserverId, next: ObserverId)

  /** The mutable list stored under an event's `log_trace` key. */
  class TraceList {
    var entries: seq<TraceEntry>
  }

  /**
   * The fields of an event dictionary the filter reads or updates:
   * `log_level`, `log_namespace` (absent or `None` are both `None` here), and
   * `log_trace` (`None` when the key is not in the event).
   */
  datatype Event = Event(level: Option<LogLevel>, namespace: Option<string>, trace: Option<TraceList>)

  /** The objects an observer may update when handed `event`. */
  function TraceFrame(event: Event): (frame: set<object>)
  {
    if event.trace.Some? then {event.trace.value} else {}
  }

  // ---------------------------------------------------------------------------
  // Predicate results and errors
  // ---------------------------------------------------------------------------

  /**
   * `PredicateResult`: `yes` (log this), `no` (do not), `maybe` (no opinion).
   * `Other` stands for any other value a predicate might return.
   */
  datatype PredicateResult = Yes | No | Maybe | Other(tag: int)

  /** The exceptions the filtering code raises. */
  datatype LogError =
    | TypeError(result: PredicateResult)       // invalid predicate result
    | InvalidLogLevelError(level: LevelArg)   // not a LogLevel constant
    | AttributeError(name: string)             // missing attribute

  /** A value, or the exception raised instead of producing it. */
  datatype Result<T> = Ok(value: T) | Err(error: LogError)

  /** A filter predicate: a classification of events. */
  type Predicate = Event -> PredicateResult

  // ---------------------------------------------------------------------------
  // shouldLogEvent
  // ---------------------------------------------------------------------------

  /** The first `n` predicates all abstain on `event`. */
  predicate Abstain(predicates: seq<Predicate>, event: Event, n: nat)
    requires n <= |predicates|
  {
    forall j :: 0 <= j < n ==> predicates[j](event) == Maybe
  }

  /**
   * `shouldLogEvent`: consult the predicates in order. The first one that
   * answers `yes` or `no` decides; `maybe` passes on to the next; running out
   * of predicates (an empty list included) means log it; any other answer
   * raises `TypeError`.
   */
  function ShouldLogEvent(predicates: seq<Predicate>, event: Event): (r: Result<bool>)
    ensures Abstain(predicates, event, |predicates|) ==> r == Ok(true)
    ensures forall i :: 0 <= i < |predicates| && Abstain(predicates, event, i) ==>
      (predicates[i](event) == Yes ==> r == Ok(true)) &&
      (predicates[i](event) == No ==> r == Ok(false)) &&
      (predicates[i](event).Other? ==> r == Err(TypeError(predicates[i](event))))
    decreases |predicates|
  {
    if predicates == [] then Ok(true)
    else
      var result := predicates[0](event);
      match result
      case Yes => Ok(true)
      case No => Ok(false)
      case Maybe =>
        var r := ShouldLogEvent(predicates[1..], event);
        assert forall i :: 1 <= i < |predicates| && Abstain(predicates, event, i) ==>
          predicates[1..][i - 1] == predicates[i] && Abstain(predicates[1..], event, i - 1);
        r
      case Other(_) => Err(TypeError(result))
  }

  /**
   * Short circuit: once some predicate of `decided` has answered other than
   * `maybe`, nothing placed after `decided` is consulted, so appending any
   * predicates (even ones that would raise) changes nothing.
   */
  lemma {:induction false} ShortCircuit(decided: seq<Predicate>, rest: seq<Predicate>, event: Event)
    requires !Abstain(decided, event, |decided|)
    ensures ShouldLogEvent(decided + rest, event) == ShouldLogEvent(decided, event)
    decreases |decided|
  {
    assert (decided + rest)[0] == decided[0];
    if decided[0](event) == Maybe {
      assert (decided + rest)[1..] == decided[1..] + rest;
      assert !Abstain(decided[1..], event, |decided[1..]|) by {
        var j :| 0 <= j < |decided| && decided[j](event) != Maybe;
        assert decided[1..][j - 1] == decided[j];
      }
      ShortCircuit(decided[1..], rest, event);
    }
  }

  /** Abstaining predicates are transparent: the decision falls to those after them. */
  lemma {:induction false} AbstainingPrefix(prefix: seq<Predicate>, rest: seq<Predicate>, event: Event)
    requires Abstain(prefix, event, |prefix|)
    ensures ShouldLogEvent(prefix + rest, event) == ShouldLogEvent(rest, event)
    decreases |prefix|
  {
    if prefix != [] {
      var whole := prefix + rest;
      assert whole[0] == prefix[0];
      assert prefix[0](event) == Maybe;
      assert ShouldLogEvent(whole, event) == ShouldLogEvent(whole[1..], event);
      assert whole[1..] == prefix[1..] + rest;
      assert Abstain(prefix[1..], event, |prefix[1..]|) by {
        forall j | 0 <= j < |prefix[1..]| ensures prefix[1..][j](event) == Maybe {
          assert prefix[1..][j] == prefix[j + 1];
        }
      }
      AbstainingPrefix(prefix[1..], rest, event);
    } else {
      assert prefix + rest == rest;
    }
  }

  /**
   * An answer outside yes/no/maybe is never read as an abstention: the
   * evaluation fails exactly when the first non-`maybe` answer is such a value.
   */
  lemma {:induction false} InvalidResultRaises(predicates: seq<Predicate>, event: Event)
    ensures ShouldLogEvent(predicates, event).Err? <==>
      exists i :: 0 <= i < |predicates| && Abstain(predicates, event, i) && predicates[i](event).Other?
    decreases |predicates|
  {
    if predicates != [] && predicates[0](event) == Maybe {
      InvalidResultRaises(predicates[1..], event);
      if ShouldLogEvent(predicates, event).Err? {
        var i :| 0 <= i < |predicates[1..]| && Abstain(predicates[1..], event, i) && predicates[1..][i](event).Other?;
        assert predicates[i + 1] == predicates[1..][i];
        assert Abstain(predicates, event, i + 1) by {
          forall j | 0 <= j < i + 1 ensures predicates[j](event) == Maybe {
            if j > 0 { assert predicates[j] == predicates[1..][j - 1]; }
          }
        }
      }
    } else if predicates != [] && predicates[0](event).Other? {
      assert Abstain(predicates, event, 0);
    }
  }

  // ---------------------------------------------------------------------------
  // Level lookup by namespace
  // ---------------------------------------------------------------------------

  /**
   * `_logLevelsByNamespace`: the key `None` is the root (default) entry; every
   * other key is a non-empty namespace.
   */
  type LevelMap = map<Option<string>, LogLevel>

  /** The root entry is present and the empty namespace is never a key. */
  predicate WellFormed(m: LevelMap)
  {
    None in m && Some("") !in m
  }

  /** The key `setLogLevelForNamespace` writes: the namespace if truthy, else the root. */
  function KeyFor(namespace: Option<string>): (key: Option<string>)
    ensures key != Some("")
    ensures namespace.Some? && namespace.value != "" ==> key == namespace
    ensures namespace.None? || namespace.value == "" ==> key == None
  {
    if namespace.None? || namespace.value == "" then None else namespace
  }

  /** The lookup key for the first `k` segments joined with dots. */
  function PrefixKey(segments: seq<string>, k: nat): (key: Option<string>)
    requires k <= |segments|
  {
    Some(Join(segments[..k]))
  }

  /** No prefix of more than `k` and at most `index` segments is configured. */
  predicate NoneLonger(m: LevelMap, segments: seq<string>, k: nat, index: nat)
    requires index < |segments|
  {
    forall j :: k < j <= index ==> PrefixKey(segments, j) !in m
  }

  /**
   * The prefix search of `logLevelForNamespace`: the level of the longest
   * configured prefix of at most `index` segments (and at least one), else the root level.
   */
  function SearchPrefixes(m: LevelMap, segments: seq<string>, index: nat): (level: LogLevel)
    requires None in m
    requires index < |segments|
    ensures level in m.Values
    decreases index
  {
    if index == 0 then m[None]
    else if PrefixKey(segments, index) in m then m[PrefixKey(segments, index)]
    else SearchPrefixes(m, segments, index - 1)
  }

  /**
   * The prefix search returns the level of the longest configured prefix
   * (between one and `index` segments), or the root level when none is configured.
   */
  lemma {:induction false} SearchFindsLongestPrefix(m: LevelMap, segments: seq<string>, index: nat)
    requires None in m
    requires index < |segments|
    ensures (forall k :: 1 <= k <= index ==> PrefixKey(segments, k) !in m) ==>
      SearchPrefixes(m, segments, index) == m[None]
    ensures forall k :: 1 <= k <= index && PrefixKey(segments, k) in m && NoneLonger(m, segments, k, index) ==>
      SearchPrefixes(m, segments, index) == m[PrefixKey(segments, k)]
    decreases index
  {
    if index > 0 && PrefixKey(segments, index) !in m {
      SearchFindsLongestPrefix(m, segments, index - 1);
      forall k | 1 <= k < index && NoneLonger(m, segments, k, index)
        ensures NoneLonger(m, segments, k, index - 1)
      {
      }
    }
  }

  /**
   * `logLevelForNamespace`: the root level for a missing or empty namespace,
   * the namespace's own level if it has one, else the level of its longest
   * configured dotted ancestor, else the root level.
   */
  function Resolve(m: LevelMap, namespace: Option<string>): (level: LogLevel)
    requires None in m
    ensures level in m.Values
    ensures namespace.None? || namespace == Some("") ==> level == m[None]
    ensures namespace != Some("") && namespace in m ==> level == m[namespace]
  {
    if namespace.None? || namespace.value == "" then m[None]
    else if namespace in m then m[namespace]
    else
      var segments := Split(namespace.value);
      SearchPrefixes(m, segments, |segments| - 1)
  }

  /**
   * A namespace without a level of its own takes the level of its nearest
   * configured dotted ancestor.
   */
  lemma ResolveNearestAncestor(m: LevelMap, n: string, p: string)
    requires None in m
    requires Some(n) !in m
    requires IsAncestor(p, n) && Some(p) in m
    requires forall q :: IsAncestor(q, n) && |p| < |q| ==> Some(q) !in m
    ensures Resolve(m, Some(n)) == m[Some(p)]
  {
    var segments := Split(n);
    var k := |Split(p)|;
    AncestorIsSegmentPrefix(p, n);
    assert PrefixKey(segments, k) == Some(p);
    forall j | k < j <= |segments| - 1 ensures PrefixKey(segments, j) !in m {
      SegmentPrefixIsAncestor(n, j);
      LongerPrefixJoinsLonger(segments, k, j);
    }
    SearchFindsLongestPrefix(m, segments, |segments| - 1);
  }

  /** A namespace with no level of its own and no configured ancestor takes the root level. */
  lemma ResolveWithoutAncestor(m: LevelMap, n: string)
    requires None in m
    requires Some(n) !in m
    requires forall q :: IsAncestor(q, n) ==> Some(q) !in m
    ensures Resolve(m, Some(n)) == m[None]
  {
    var segments := Split(n);
    forall k | 1 <= k <= |segments| - 1 ensures PrefixKey(segments, k) !in m {
      SegmentPrefixIsAncestor(n, k);
    }
    SearchFindsLongestPrefix(m, segments, |segments| - 1);
  }

  /** After construction or `clearLogLevels`, every namespace resolves to the default level. */
  lemma ResolveAfterReset(defaultLevel: LogLevel, namespace: Option<string>)
    ensures Resolve(map[None := defaultLevel], namespace) == defaultLevel
  {
    var m: LevelMap := map[None := defaultLevel];
    forall v | v in m.Values ensures v == defaultLevel {
      var k :| k in m && m[k] == v;
    }
  }

  /**
   * With the root at `info` and "app" at `debug`, "app.db" resolves to `debug`
   * and "other" to `info`.
   */
  lemma PackageLevelCoversSubpackage()
    ensures Resolve(map[None := Info, Some("app") := Debug], Some("app.db")) == Debug
    ensures Resolve(map[None := Info, Some("app") := Debug], Some("other")) == Info
  {
    var m: LevelMap := map[None := Info, Some("app") := Debug];
    var appDb, other := "app.db", "other";
    assert appDb[..3] == "app";
    assert Some(appDb) !in m;
    forall q | IsAncestor(q, appDb) && 3 < |q| ensures Some(q) !in m {
      assert appDb[4] != Dot && appDb[5] != Dot;
    }
    ResolveNearestAncestor(m, appDb, "app");
    forall q ensures !IsAncestor(q, other) {
      assert forall i :: 0 <= i < |other| ==> other[i] != Dot;
    }
    ResolveWithoutAncestor(m, other);
  }

  // ---------------------------------------------------------------------------
  // LogLevelFilterPredicate.__call__
  // ---------------------------------------------------------------------------

  /**
   * `LogLevelFilterPredicate.__call__` over the level map `m`: veto (`no`)
   * events with no level, no namespace, or a level of lower priority than the
   * namespace's resolved level; otherwise abstain (`maybe`). Never `yes`.
   */
  function Classify(m: LevelMap, event: Event): (r: PredicateResult)
    requires None in m
    ensures r == No || r == Maybe
  {
    if event.level.None? || event.namespace.None?
       || Priority(event.level.value) < Priority(Resolve(m, event.namespace))
    then No
    else Maybe
  }

  /** Events without a level or without a namespace are dropped, whatever the levels. */
  lemma MissingFieldsDenied(m: LevelMap, event: Event)
    requires None in m
    requires event.level.None? || event.namespace.None?
    ensures Classify(m, event) == No
  {
  }

  /** An empty namespace is not denied as such: it is judged against the root level. */
  lemma EmptyNamespaceUsesRoot(m: LevelMap, event: Event)
    requires None in m
    requires event.level.Some? && event.namespace == Some("")
    ensures Classify(m, event) == Maybe <==> Priority(m[None]) <= Priority(event.level.value)
  {
  }

  /** Raising an event's level never turns a pass into a veto. */
  lemma ClassifyMonotoneInLevel(m: LevelMap, event: Event, higher: LogLevel)
    requires None in m
    requires Classify(m, event) == Maybe
    requires Priority(event.level.value) <= Priority(higher)
    ensures Classify(m, event.(level := Some(higher))) == Maybe
  {
  }

  /**
   * An event whose namespace has no level of its own is judged against the
   * nearest configured dotted ancestor.
   */
  lemma ClassifyAgainstAncestor(m: LevelMap, event: Event, p: string)
    requires None in m
    requires event.level.Some? && event.namespace.Some?
    requires Some(event.namespace.value) !in m
    requires IsAncestor(p, event.namespace.value) && Some(p) in m
    requires forall q :: IsAncestor(q, event.namespace.value) && |p| < |q| ==> Some(q) !in m
    ensures Classify(m, event) == No <==> Priority(event.level.value) < Priority(m[Some(p)])
  {
    ResolveNearestAncestor(m, event.namespace.value, p);
  }

  /** With only the default configured, exactly the events at or above it with a namespace pass. */
  lemma ClassifyAfterReset(defaultLevel: LogLevel, event: Event)
    ensures Classify(map[None := defaultLevel], event) == Maybe <==>
      event.level.Some? && event.namespace.Some? && Priority(defaultLevel) <= Priority(event.level.value)
  {
    if event.namespace.Some? {
      ResolveAfterReset(defaultLevel, event.namespace);
    }
  }

  /** The level filter as a chain predicate, over a snapshot of its level map. */
  function LevelPredicate(m: LevelMap): (classify: Predicate)
    requires None in m
  {
    (event: Event) => Classify(m, event)
  }

  /**
   * A level filter at the head of a chain vetoes what it denies and otherwise
   * leaves the decision to the rest of the chain.
   */
  lemma LevelFilterHeadsChain(m: LevelMap, rest: seq<Predicate>, event: Event)
    requires None in m
    ensures ShouldLogEvent([LevelPredicate(m)] + rest, event) ==
      if Classify(m, event) == No then Ok(false) else ShouldLogEvent(rest, event)
  {
    var chain := [LevelPredicate(m)] + rest;
    assert chain[0](event) == Classify(m, event);
    assert chain[1..] == rest;
  }

  // ---------------------------------------------------------------------------
  // LogLevelFilterPredicate
  // ---------------------------------------------------------------------------

  /** A predicate that drops events below the level configured for their namespace. */
  class LogLevelFilterPredicate {
    var levelsByNamespace: LevelMap
    var defaultLogLevel: LogLevel

    ghost predicate Valid()
      reads this
    {
      WellFormed(levelsByNamespace)
    }

    /** Starts with only the root entry, set to `defaultLogLevel` (`info` unless given). */
    constructor (defaultLogLevel: LogLevel := Info)
      ensures Valid()
      ensures this.defaultLogLevel == defaultLogLevel
      ensures levelsByNamespace == map[None := defaultLogLevel]
    {
      this.defaultLogLevel := defaultLogLevel;
      levelsByNamespace := map[None := defaultLogLevel];
    }

    /** The level for `namespace`, found by the exact key, then a dotted prefix search. */
    method LogLevelForNamespace(namespace: Option<string>) returns (level: LogLevel)
      requires Valid()
      ensures level == Resolve(levelsByNamespace, namespace)
    {
      var levels := levelsByNamespace;
      if namespace.None? || namespace.value == "" {
        return levels[None];
      }
      if namespace in levels {
        return levels[namespace];
      }
      var segments := Split(namespace.value);
      var index := |segments| - 1;
      ghost var resolved := SearchPrefixes(levels, segments, index);
      while index > 0
        invariant 0 <= index < |segments|
        invariant SearchPrefixes(levels, segments, index) == resolved
      {
        var candidate := Join(segments[..index]);
        if Some(candidate) in levels {
          assert PrefixKey(segments, index) == Some(candidate);
          return levels[Some(candidate)];
        }
        index := index - 1;
      }
      return levels[None];
    }

    /**
     * Sets the level for `namespace` (the root entry when it is missing or
     * empty); a value that is not a level constant raises
     * `InvalidLogLevelError` and changes nothing.
     */
    method SetLogLevelForNamespace(namespace: Option<string>, level: LevelArg) returns (r: Result<()>)
      requires Valid()
      modifies this`levelsByNamespace
      ensures Valid()
      ensures !IsLogLevel(level) ==> r == Err(InvalidLogLevelError(level))
                                     && levelsByNamespace == old(levelsByNamespace)
      ensures IsLogLevel(level) ==> r == Ok(())
                                    && levelsByNamespace == old(levelsByNamespace)[KeyFor(namespace) := level.level]
    {
      if !IsLogLevel(level) {
        return Err(InvalidLogLevelError(level));
      }
      if namespace.Some? && namespace.value != "" {
        levelsByNamespace := levelsByNamespace[namespace := level.level];
      } else {
        levelsByNamespace := levelsByNamespace[None := level.level];
      }
      r := Ok(());
    }

    /** Drops every namespace entry and resets the root entry to the default level. */
    method ClearLogLevels()
      modifies this`levelsByNamespace
      ensures Valid()
      ensures levelsByNamespace == map[None := defaultLogLevel]
    {
      levelsByNamespace := map[None := defaultLogLevel];
    }

    /** `__call__`: veto or abstain on `event` against the current levels. */
    method Call(event: Event) returns (r: PredicateResult)
      requires Valid()
      ensures r == Classify(levelsByNamespace, event)
    {
      var namespaceLevel := LogLevelForNamespace(event.namespace);
      if event.level.None? || event.namespace.None?
         || Priority(event.level.value) < Priority(namespaceLevel) {
        return No;
      }
      return Maybe;
    }
  }

  // ---------------------------------------------------------------------------
  // FilteringLogObserver
  // ---------------------------------------------------------------------------

  /**
   * An observer that forwards to `observer` the events its predicates let
   * through. The predicate list is fixed at construction; `forwarded` records
   * the events handed to the wrapped observer.
   */
  class FilteringLogObserver {
    const id: ObserverId
    const observer: ObserverId
    const predicates: seq<Predicate>
    ghost var forwarded: seq<Event>

    constructor (id: ObserverId, observer: ObserverId, predicates: seq<Predicate>)
      ensures this.id == id && this.observer == observer
      ensures this.predicates == predicates
      ensures forwarded == []
    {
      this.id := id;
      this.observer := observer;
      this.predicates := predicates;
      forwarded := [];
    }

    /**
     * `__call__`: when the predicates accept `event`, append one trace entry
     * if the event already has a trace list, and forward it once; when they
     * reject it, do nothing; when a predicate answers invalidly, raise.
     */
    method Call(event: Event) returns (r: Result<()>)
      modifies this`forwarded, TraceFrame(event)
      ensures ShouldLogEvent(predicates, event).Err? ==> r == Err(ShouldLogEvent(predicates, event).error)
      ensures ShouldLogEvent(predicates, event).Ok? ==> r == Ok(())
      ensures forwarded == if ShouldLogEvent(predicates, event) == Ok(true)
                           then old(forwarded) + [event] else old(forwarded)
      ensures event.trace.Some? ==>
        event.trace.value.entries == if ShouldLogEvent(predicates, event) == Ok(true)
                                     then old(event.trace.value.entries) + [TraceEntry(id, observer)]
                                     else old(event.trace.value.entries)
    {
      var decision := ShouldLogEvent(predicates, event);
      if decision.Err? {
        return Err(decision.error);
      }
      if decision.value {
        if event.trace.Some? {
          event.trace.value.entries := event.trace.value.entries + [TraceEntry(id, observer)];
        }
        forwarded := forwarded + [event];
      }
      r := Ok(());
    }
  }

  /**
   * `FilteringLogObserver.__call__` exactly as written: the trace entry reads
   * `self.observer`, an attribute the class never sets (it stores
   * `_observer`), so an accepted event that carries a trace list raises
   * `AttributeError` before anything is appended or forwarded. The result
   * says whether the event reached the wrapped observer.
   */
  function CallAsWritten(predicates: seq<Predicate>, event: Event): (r: Result<bool>)
    ensures r == Ok(true) ==> ShouldLogEvent(predicates, event) == Ok(true) && event.trace.None?
  {
    match ShouldLogEvent(predicates, event)
    case Err(e) => Err(e)
    case Ok(pass) =>
      if !pass then Ok(false)
      else if event.trace.Some? then Err(AttributeError("observer"))
      else Ok(true)
  }

  /** As written, an accepted event that carries a trace list never reaches the wrapped observer. */
  lemma AsWrittenLosesTracedEvents(predicates: seq<Predicate>, event: Event)
    requires ShouldLogEvent(predicates, event) == Ok(true)
    requires event.trace.Some?
    ensures CallAsWritten(predicates, event) == Err(AttributeError("observer"))
  {
  }

  /** The smallest case: no predicates at all, and an event with a trace list. */
  lemma AsWrittenCounterexample(trace: TraceList)
    ensures CallAsWritten([], Event(Some(Info), Some("app"), Some(trace))).Err?
  {
  }
}

/** What callers can conclude from the contracts above alone. */
module FilterClient {
  import opened Wrappers
  import opened Levels
  import opened Filter

  method ConfigureLevels()
  {
    var filter := new LogLevelFilterPredicate();
    var accepted := filter.SetLogLevelForNamespace(Some("app"), Constant(Debug));
    assert filter.levelsByNamespace == map[None := Info, Some("app") := Debug];
    var level := filter.LogLevelForNamespace(Some("app.db"));
    PackageLevelCoversSubpackage();
    assert level == Debug;
    level := filter.LogLevelForNamespace(Some("other"));
    assert level == Info;

    var rejected := filter.SetLogLevelForNamespace(Some("app"), Foreign("loud"));
    assert rejected == Err(InvalidLogLevelError(Foreign("loud")));
    assert filter.levelsByNamespace == map[None := Info, Some("app") := Debug];

    filter.ClearLogLevels();
    level := filter.LogLevelForNamespace(Some("app.db"));
    ResolveAfterReset(Info, Some("app.db"));
    assert level == Info;
  }

  method ForwardThroughChain(trace: TraceList)
    modifies trace
  {
    var levels: LevelMap := map[None := Info];
    var allowAll: Predicate := (event: Event) => Yes;
    var forwarder := new FilteringLogObserver(1, 2, [LevelPredicate(levels), allowAll]);
    var event := Event(Some(Warn), Some("app.db"), Some(trace));
    ghost var before := trace.entries;

    ClassifyAfterReset(Info, event);
    LevelFilterHeadsChain(levels, [allowAll], event);
    assert ShouldLogEvent([allowAll], event) == Ok(true);
    var r := forwarder.Call(event);
    assert forwarder.forwarded == [event];
    assert trace.entries == before + [TraceEntry(1, 2)];

    var quiet := Event(Some(Debug), Some("app.db"), None);
    ClassifyAfterReset(Info, quiet);
    LevelFilterHeadsChain(levels, [allowAll], quiet);
    r := forwarder.Call(quiet);
    assert forwarder.forwarded == [event];
  }
}

=== FILE: levels.dfy ===
/**
 * The log levels the filter compares. The level enumeration belongs to
 * twisted/python/logger/_levels.py, which is not part of this model: only the
 * five constants, their order and the membership test are modelled here.
 */
module Levels {

  /** The constants of `LogLevel`, in declaration order. */
  datatype LogLevel = Debug | Info | Warn | Error | Critical

  /** `LogLevel._priorityForLevel`: a level's position in declaration order. */
  function Priority(level: LogLevel): nat
  {
    match level
    case Debug => 0
    case Info => 1
    case Warn => 2
    case Error => 3
    case Critical => 4
  }

  /**
   * Anything a caller may hand over where a level is expected: one of the
   * constants, or some other value (described by its representation).
   */
  datatype LevelArg = Constant(level: LogLevel) | Foreign(description: string)

  /** `level in LogLevel.iterconstants()`. */
  function IsLogLevel(arg: LevelArg): (r: bool)
    ensures r <==> arg in {Constant(Debug), Constant(Info), Constant(Warn), Constant(Error), Constant(Critical)}
  {
    assert arg.Constant? ==>
      arg.level == Debug || arg.level == Info || arg.level == Warn || arg.level == Error || arg.level == Critical;
    arg.Constant?
  }
}

=== FILE: namespaces.dfy ===
/**
 * Dotted logging namespaces ("app.db.pool") and the two string operations
 * the level lookup uses on them: Python's `str.split(".")` and `".".join`.
 * Both keep empty segments, so "a..b" has the three segments "a", "" and "b".
 */
module Namespaces {

  const Dot: char := '.'

  /** `s.split(".")`: the pieces of `s` between dots; never empty, and no piece holds a dot. */
  function Split(s: string): (segments: seq<string>)
    ensures |segments| >= 1
    ensures forall i :: 0 <= i < |segments| ==> Dot !in segments[i]
    decreases |s|
  {
    if s == [] then [""]
    else
      var rest := Split(s[1..]);
      if s[0] == Dot then [""] + rest
      else [[s[0]] + rest[0]] + rest[1..]
  }

  /** `".".join(segments)`. */
  function Join(segments: seq<string>): (s: string)
    ensures |segments| >= 1 ==> |segments[0]| <= |s| && s[..|segments[0]|] == segments[0]
    ensures |segments| >= 2 ==> |segments[0]| < |s| && s[|segments[0]|] == Dot
  {
    if |segments| == 0 then ""
    else if |segments| == 1 then segments[0]
    else segments[0] + [Dot] + Join(segments[1..])
  }

  /** `p` is a dotted ancestor of `n`: `n` is `p`, then a dot, then more. */
  predicate IsAncestor(p: string, n: string)
  {
    |p| < |n| && n[..|p|] == p && n[|p|] == Dot
  }

  /** Joining the split pieces gives back the namespace. */
  lemma {:induction false} JoinSplit(s: string)
    ensures Join(Split(s)) == s
    decreases |s|
  {
    if s != [] {
      var rest := Split(s[1..]);
      JoinSplit(s[1..]);
      if s[0] == Dot {
        assert Split(s) == [""] + rest;
        assert Join(Split(s)) == "" + [Dot] + Join(rest);
        assert s == [s[0]] + s[1..];
      } else {
        assert Split(s) == [[s[0]] + rest[0]] + rest[1..];
        if |rest| == 1 {
          assert Join(Split(s)) == [s[0]] + rest[0];
        } else {
          assert Join(rest) == rest[0] + [Dot] + Join(rest[1..]);
          assert Join(Split(s)) == [s[0]] + rest[0] + [Dot] + Join(rest[1..]);
        }
        assert s == [s[0]] + s[1..];
      }
    }
  }

  /** A namespace without dots is a single segment. */
  lemma {:induction false} SplitWithoutDot(s: string)
    requires Dot !in s
    ensures Split(s) == [s]
    decreases |s|
  {
    if s != [] {
      assert Dot !in s[1..] by {
        forall i | 0 <= i < |s[1..]| ensures s[1..][i] != Dot {
          assert s[1..][i] == s[i + 1];
        }
      }
      SplitWithoutDot(s[1..]);
      assert s == [s[0]] + s[1..];
    }
  }

  /** Splitting at a dot: the pieces of `a + "." + b` are those of `a`, then those of `b`. */
  lemma {:induction false} SplitAtDot(a: string, b: string)
    ensures Split(a + [Dot] + b) == Split(a) + Split(b)
    decreases |a|
  {
    var s := a + [Dot] + b;
    if a == [] {
      assert s == [Dot] + b;
      assert s[1..] == b;
    } else {
      assert s[0] == a[0];
      assert s[1..] == a[1..] + [Dot] + b;
      SplitAtDot(a[1..], b);
      var tail, sb := Split(a[1..]), Split(b);
      var rest := Split(s[1..]);
      assert rest == tail + sb;
      if a[0] == Dot {
        calc {
          Split(s);
          [""] + rest;
          [""] + tail + sb;
          Split(a) + sb;
        }
      } else {
        assert rest[0] == tail[0];
        assert rest[1..] == tail[1..] + sb;
        calc {
          Split(s);
          [[a[0]] + rest[0]] + rest[1..];
          [[a[0]] + tail[0]] + (tail[1..] + sb);
          ([[a[0]] + tail[0]] + tail[1..]) + sb;
          Split(a) + sb;
        }
      }
    }
  }

  /** Joining two non-empty runs of segments puts one dot between them. */
  lemma {:induction false} JoinAppend(a: seq<string>, b: seq<string>)
    requires |a| >= 1 && |b| >= 1
    ensures Join(a + b) == Join(a) + [Dot] + Join(b)
    decreases |a|
  {
    if |a| == 1 {
      assert (a + b)[1..] == b;
    } else {
      assert (a + b)[1..] == a[1..] + b;
      JoinAppend(a[1..], b);
    }
  }

  /** Splitting a join of dot-free segments gives the segments back. */
  lemma {:induction false} SplitJoin(segments: seq<string>)
    requires |segments| >= 1
    requires forall i :: 0 <= i < |segments| ==> Dot !in segments[i]
    ensures Split(Join(segments)) == segments
    decreases |segments|
  {
    if |segments| == 1 {
      SplitWithoutDot(segments[0]);
    } else {
      SplitJoin(segments[1..]);
      SplitWithoutDot(segments[0]);
      SplitAtDot(segments[0], Join(segments[1..]));
      assert segments == [segments[0]] + segments[1..];
    }
  }

  /**
   * Every candidate the level lookup tries, the first k segments joined back
   * together for 1 <= k < the segment count, is a dotted ancestor of the namespace.
   */
  lemma SegmentPrefixIsAncestor(n: string, k: nat)
    requires 1 <= k < |Split(n)|
    ensures IsAncestor(Join(Split(n)[..k]), n)
  {
    var segments := Split(n);
    assert segments == segments[..k] + segments[k..];
    JoinAppend(segments[..k], segments[k..]);
    JoinSplit(n);
  }

  /**
   * Conversely, every dotted ancestor of a namespace is one of those candidates:
   * the join of the first |Split(p)| segments.
   */
  lemma AncestorIsSegmentPrefix(p: string, n: string)
    requires IsAncestor(p, n)
    ensures 1 <= |Split(p)| < |Split(n)|
    ensures Join(Split(n)[..|Split(p)|]) == p
  {
    var rest := n[|p| + 1..];
    assert n == p + [Dot] + rest;
    SplitAtDot(p, rest);
    assert Split(n)[..|Split(p)|] == Split(p);
    JoinSplit(p);
  }

  /** Longer segment prefixes join to longer strings. */
  lemma LongerPrefixJoinsLonger(segments: seq<string>, k: nat, j: nat)
    requires 1 <= k < j <= |segments|
    ensures |Join(segments[..k])| < |Join(segments[..j])|
  {
    assert segments[..j] == segments[..k] + segments[k..j];
    JoinAppend(segments[..k], segments[k..j]);
  }
}

=== FILE: wrappers.dfy ===
/** The optional-value type shared by the other modules. */
module Wrappers {

  /** A value that may be absent: Python's `None` where a value is optional. */
  datatype Option<+T> = None | Some(value: T)
}
